=== FILE: README.md ===
# AI Trip Planner: configuration, database settings and query handling

This project models the decision and normalisation logic of the AI Trip
Planner's Python backend and proves properties of it in Dafny:

- **Configuration loading** (`utils/config_loader.py`): which file is read,
  how the parsed YAML document becomes a configuration map, and the ordered
  structure check that demands an `llm` section naming a `groq` or `openai`
  provider, each with a `model_name`.
- **Database settings** (`app/database.py`): integer settings read from the
  environment with fall-back defaults, the keyword arguments the SQLAlchemy
  engine is created with (SQLite versus server databases, SSL arguments), and
  the rewrite of PostgreSQL URLs to the `psycopg` driver.
- **Query handling in both services** (`app/main.py`, the backend, and
  `main.py`, the standalone service): the `question` field rule, the answer
  taken from the agent's output, the excerpt and trip payload stored with a
  trip, and the mapping of failures to HTTP statuses.

Python's string semantics that these depend on (`str.isspace`, `str.strip`,
`str.splitlines`, the substring test) are modelled in `PyStr`, with CPython's
whitespace and line-boundary tables, for every string without lone surrogates.
Everything external is a value or a parameter: the environment is a map, the
filesystem is a map from paths to entries that carry the YAML parse result,
Python's `int()`, SQLAlchemy's `make_url` and its dialect registry are
function parameters, pydantic's parse of the trip form is a given result, and the
agent is a function from the question to what its invocation returns or
raises.

Modules: `Wrappers` (Option/Result/Outcome), `Values` (YAML/JSON-like
values), `PyStr`, `ConfigLoader`, `Database`, `Api` (what both services
share), `AppMain`, `LegacyMain`.

## Model

| member | source | states |
|---|---|---|
| PyStr.IsSpace | app/main.py:55-57 | The whitespace `strip()` removes is CPython's `isspace` table; among ASCII characters it is exactly space, tab, line feed, carriage return, vertical tab, form feed and the separators U+001C to U+001F. |
| PyStr.IsLineBreak | app/main.py:183 | The boundaries `splitlines` splits on are CPython's table (U+000A to U+000D, U+001C to U+001E, U+0085, U+2028, U+2029), and every one of them is whitespace. |
| PyStr.Contains | app/main.py:208 | The substring test `p in t` holds only when `p` is no longer than `t`; its declarative reading is PyStr.ContainsIffOccurs. |
| PyStr.ContainsIffOccurs | app/main.py:208 | `p in t` holds exactly when `p` occurs in `t` at some index. |
| PyStr.IsBlank | app/main.py:55 | `not value.strip()` (and the negation of the `if line.strip()` filter at line 183): every character is whitespace; with PyStr.Strip this is exactly an empty stripped text. |
| PyStr.Strip | app/main.py:55-57 | The stripped text is empty exactly when the input is whitespace only, and otherwise starts and ends with a non-whitespace character. |
| PyStr.StripDecomposes | app/main.py:57 | The input is whitespace, then its stripped text, then whitespace: stripping removes nothing else. |
| PyStr.StripIdempotent | app/main.py:57 | Stripping a stripped question changes nothing. |
| PyStr.SplitLines | app/main.py:183 | The answer splits into lines that contain no line boundary; only the empty text has no lines. |
| PyStr.SplitLinesBreak | app/main.py:183 | A line ended by a single boundary character (other than the `\r` of a `\r\n` pair) is the first line, and the remaining lines are those of the rest of the text, in order. |
| PyStr.SplitLinesCrLf | app/main.py:183 | A `\r\n` pair ends a line as one boundary: the line comes first and the lines of the rest follow, with no empty line between. |
| PyStr.SplitLinesLastLine | app/main.py:183 | A non-empty text with no boundary is exactly one line. |
| PyStr.SplitLinesBlank | app/main.py:183 | A text is blank exactly when every line `splitlines` gives is blank. |
| Api.ValidateQuestion | app/main.py:49-57 | A question is accepted exactly when it has 1 to 1000 characters and is not whitespace only; the accepted value is the stripped input, 1 to 1000 characters, with no whitespace at either end; too short, too long and blank inputs get their own errors, length first. |
| Api.QuestionErrors | app/main.py:49-57 | The question contributes no field error exactly when it is accepted, and otherwise exactly one, carrying its reason. |
| Api.ValidateQuestionIdempotent | app/main.py:53-57 | An accepted question is accepted again unchanged. |
| Api.FinalAnswer | app/main.py:165-168 | A state with messages answers with the last message's content, any other output with its `str()`; an empty message list raises `IndexError`. |
| Api.FinalAnswerIsLastMessage | main.py:91-94 | Whatever the earlier messages, the answer is the content of the last one. |
| AppMain.FieldValue | app/main.py:34-43 | Only the nine `TripDetails` field names, under their Python names rather than their aliases, have a value; `number_of_people` holds an integer and every other field a string. |
| AppMain.TripPayload | app/main.py:179-181 | No trip details give the empty payload; otherwise a field is in the payload exactly when it is set, with its value, and only `TripDetails` field names occur. |
| AppMain.TripPayloadFields | app/main.py:179-181 | Each of the nine fields is in the payload exactly when it is set, under its own Python name, holding its value (`number_of_people` as an integer, the others as strings). |
| AppMain.TripColumns | app/database.py:97-112 | The trip columns filled by `Trip(**payload)`: a column the payload does not pass stays unset. |
| AppMain.TripPayloadRoundTrip | app/main.py:179-193 | Filling the trip columns from the payload gives back exactly the submitted form: no field is lost or put under another name. |
| AppMain.TripPayloadExtremes | app/main.py:34-43 | A form with all nine fields set yields all nine field names; a form with none set yields the empty payload. |
| AppMain.Excerpt | app/main.py:183 | The excerpt is absent exactly when the whole answer is blank; otherwise it is the stripped first non-blank line, all lines before it blank, and it is non-empty with no whitespace at either end. |
| AppMain.NoExcerptIffAllLinesBlank | app/main.py:183 | There is no excerpt exactly when every line of the answer is blank. |
| AppMain.FirstNonBlankLine | app/main.py:183 | The search stops at the first line, from the given one on, that is not blank, every line skipped being blank, or after the last line when all are blank. |
| AppMain.ExcerptOfLeadingLine | app/main.py:183 | An answer whose first line is not blank has that line, stripped, as its excerpt, whichever boundary ends it (including `\r\n`) and whatever follows. |
| AppMain.ExcerptOfSingleLine | app/main.py:183 | A one-line answer that is not blank has that line, stripped, as its excerpt. |
| AppMain.ErrorFor | app/main.py:201-213 | A `ValueError` gives 400; any other exception gives 503 exactly when its text contains `model_decommissioned`, and 500 otherwise. |
| AppMain.TripRecord | app/main.py:185-193 | The saved record holds the question, the answer, the excerpt (`None` when absent) and every trip payload field unchanged. |
| AppMain.ProcessQuery | app/main.py:154-213 | No agent gives 503; an exception from the agent gives its mapped status; success happens exactly when the agent returns an output with an answer, and then the reply carries that answer and the record with its excerpt and trip payload; every failure is 400, 500 or 503. |
| AppMain.EmptyMessagesIsInternalError | app/main.py:161-213 | An agent state with an empty message list ends in 500 Internal server error. |
| AppMain.QueryEndpoint | app/main.py:216-223 | Both endpoints validate the body against `QueryRequest` (app/main.py lines 49-57) first: a request is refused exactly when its question is invalid or its `tripDetails` do not parse, with the question's error before the trip form's, and before the agent is consulted; otherwise the endpoint answers as `_process_query` does on the stripped question and the parsed trip details. |
| AppMain.MalformedTripDetailsRefused | app/main.py:49-51 | A valid question with trip details that do not parse is refused for the trip details alone. |
| LegacyMain.EmptyMessagesIsInternalError | main.py:91-111 | An agent state with an empty message list ends in 500 Internal server error. |
| LegacyMain.QuestionRule | main.py:20-27 | A request is refused exactly when its question has fewer than 1 or more than 1000 characters or is whitespace only, whatever the agent would do; a question within bounds that is whitespace only is refused as blank; an accepted question reaches the agent stripped. |
| LegacyMain.ErrorFor | main.py:105-111 | A `ValueError` gives 400 and every other exception 500; nothing gives 503. |
| LegacyMain.ErrorMappingsAgree | main.py:105-111 | The two services map an exception alike except a non-`ValueError` mentioning `model_decommissioned`, which the backend answers with 503 and this service with 500. |
| LegacyMain.QueryTravelAgent | main.py:77-111 | A request is refused exactly when its question is invalid; otherwise the agent sees the stripped question, an exception from the agent or from taking the answer (an empty message list) gives its mapped error, and success happens exactly when the agent's output yields an answer, which is returned; errors are 400 or 500. |
| LegacyMain.SameAnswerAsBackend | main.py:20-27 | With the agent present and trip details the backend can parse (or none), both services refuse the same requests with the same errors, succeed on the same requests with the same answer, and fail with the same error whenever the standalone service's status is not 500; trip details the backend cannot parse are refused there, while the standalone service, which has no such field, refuses only an invalid question. |
| ConfigLoader.ConfigPath | utils/config_loader.py:26-27 | The file read is the given path, else `CONFIG_PATH`, else `config/config.yaml`. |
| ConfigLoader.LoadConfig | utils/config_loader.py:29-58 | A missing path, a directory and a YAML syntax error are errors naming the path; an empty document loads as the empty map; a mapping loads as it is; any other document is refused as not a dictionary; a success is always one of the first two. |
| ConfigLoader.FirstMissingSection | utils/config_loader.py:78-82 | No section is reported exactly when every required section is present; otherwise the first absent one, in the listed order, is reported. |
| ConfigLoader.ProviderError | utils/config_loader.py:99-104 | A provider section passes exactly when it is a mapping with `model_name`; a non-mapping is reported as such before a missing `model_name`. |
| ConfigLoader.CheckProviders | utils/config_loader.py:96-104 | The providers pass exactly when every present one has a usable section; a failure is the error of the first present provider whose section is unusable. |
| ConfigLoader.ValidateConfigStructure | utils/config_loader.py:68-107 | The configuration passes exactly when it is well formed; a missing `llm` section, a non-mapping `llm` and an `llm` with neither `groq` nor `openai` are reported in that order; when `llm` is a mapping naming a provider, the verdict is the provider loop's (the first present provider with an unusable section decides the error); provider errors name `groq` or `openai`. |
| ConfigLoader.GroqCheckedFirst | utils/config_loader.py:90-104 | An unusable `groq` section is the reported error even when `openai` is unusable too. |
| ConfigLoader.ExtraKeysIrrelevant | utils/config_loader.py:78-107 | Two configurations that agree on the presence and kind of `llm` and on its `groq` and `openai` entries get the same verdict, whatever their other keys. |
| ConfigLoader.LoadAndValidateConfig | utils/config_loader.py:109-121 | The result is the loaded configuration unchanged exactly when it loads and is well formed; a loading error is returned as it is, and a structure error is the structure check's. |
| ConfigLoader.EmptyFileRefused | utils/config_loader.py:48-50 | An empty configuration file loads but is refused for its missing `llm` section. |
| Database.CoerceIntEnv | app/database.py:23-31 | An unset variable gives the default, a parsable one its integer, an unparsable one the default rather than an error. |
| Database.PoolKwargs | app/database.py:54-64 | The pool settings are exactly the four keys, each read from its variable with default 5, 10, 30 or 1800. |
| Database.SslConnectArgs | app/database.py:66-73 | `sslmode` and `sslrootcert` are present exactly when their variables are set and non-empty, holding those values, and nothing else is. |
| Database.ServerEngineKwargs | app/database.py:54-76 | A server database gets exactly `echo`, `pool_pre_ping`, the four pool settings from the environment, and `connect_args` exactly when `DATABASE_SSL_MODE` or `DATABASE_SSL_ROOT_CERT` is set and non-empty, holding just those settings. |
| Database.BuildEngineKwargs | app/database.py:47-78 | `echo` is false and `pool_pre_ping` true always; SQLite gets exactly those plus `check_same_thread=False`; other backends get the four pool settings, and `connect_args` exactly when an SSL setting is given, holding just the given ones. |
| Database.DefaultPoolSettings | app/database.py:54-57 | With no pool variable set, a server database gets pool size 5, overflow 10, timeout 30 and recycle 1800. |
| Database.DriverName | app/database.py:83 | `url.get_driver_name()`: the URL's own `+driver` when it has one, otherwise the default driver of its backend's dialect, and nothing when that dialect cannot be loaded. |
| Database.NeedsPsycopg | app/database.py:85 | The rewrite applies exactly to the `postgresql` backend with an empty driver name or `psycopg2`. |
| Database.NormalizeDriver | app/database.py:81-88 | A URL with no `+driver` whose backend has no dialect fails with `NoSuchModuleError`; otherwise the driver name is the URL's own or the dialect's default, PostgreSQL with an empty driver name or `psycopg2` is switched to `psycopg` with every other part kept, and any other URL is returned unchanged. |
| Database.NormalizeDriverIdempotent | app/database.py:81-88 | Normalising a normalised URL changes nothing, and its driver name no longer needs switching. |
| Database.PlainPostgresqlGetsPsycopg | app/database.py:81-86 | A `postgresql://` URL with no driver takes the dialect default `psycopg2` and is switched to `psycopg`. |
| Database.ConfiguredUrl | app/database.py:12-20 | `DATABASE_URL`, or the SQLite default when unset, is parsed and normalised; an unparsable URL is an error naming it, and a URL whose dialect cannot be loaded fails in the normalisation; a success never needs switching. |
| Database.LegacyPostgresSchemeRefused | app/database.py:81-91 | A `DATABASE_URL` with the old `postgres` scheme and no driver fails at start-up when no dialect of that name exists. |

## Left out

- The frontend build: the backend only serves its files when they exist (app/main.py lines 25-27, 125-135 and 250-257); nothing in it is modelled.
- Logging, the float `processing_time`, timestamps and the `/health`, `/`, `/api` and trip-listing endpoints: they carry no decision logic.
- The background save of a trip (`save_trip`, sessions, `asyncio` tasks) and `get_recent_trips`: the model stops at the record handed to the save.
- Engine creation, `_prepare_sqlite_directory` and `init_db`: they touch the filesystem and the database.
- YAML parsing, SQLAlchemy URL parsing and Python's `int()` on strings: taken as given results or function parameters, not reimplemented.
- ConfigLoader.LoadConfig: failures while reading an existing file (permissions, undecodable bytes), which are re-raised, are not modelled.
- Path handling in `load_config`: paths are compared as strings, so `Path` normalisation (for instance `""` meaning the current directory) is not modelled.
- Error message texts of the configuration errors: each error is a variant carrying the section or provider it names.
- Non-string YAML keys and YAML floats or dates: the structure check only looks at string keys and at whether values are mappings.
- PyStr.SplitLines: its own contract only says the lines hold no boundary; which lines come out, and in what order, is stated by PyStr.SplitLinesBreak, PyStr.SplitLinesCrLf and PyStr.SplitLinesLastLine.
- Api.FinalAnswer: message contents are strings; a message without a `content` attribute (an `AttributeError`, answered 500) or non-string content is not modelled.
- Database.NormalizeDriver: the `None` alternative of the driver test is not modelled as a separate case, because `get_driver_name()` returns a string or raises; which dialects exist and their default drivers are SQLAlchemy's and a parameter here.
- LegacyMain.QueryTravelAgent: the agent is always present, because the standalone service does not start when building it fails.
- The status of a refused request: a refused request body is answered by FastAPI's own validation response; the model reports the reason, not the framework's status code.
- AppMain.TripPayload: parsing the request's camel-case aliases into `TripDetails` is pydantic's work and not modelled; the payload is built from the parsed fields, and `AppMain.QueryEndpoint` receives the parse's outcome (absent, malformed or the parsed form), not the JSON.
- Text holding lone surrogates (U+D800 to U+DFFF), which a JSON request body can carry into `question` or an agent's answer, is not representable: the model's strings are sequences of Unicode scalar values.
- CORS, static file and single-page-app serving, `unified_app.py`, the search and currency tools, the prompt text and the model loader: plumbing around the modelled logic.

=== FILE: api.dfy ===
/** What both HTTP entry points share: the request body's question rule, the
    agent's reply shape, the exceptions an invocation can raise and the HTTP
    error a handler answers with. */
module Api {
  import opened Wrappers
  import opened PyStr

  /** Bounds of the `question` field (`Field(min_length=1, max_length=1000)`). */
  const MinQuestionLength: nat := 1
  const MaxQuestionLength: nat := 1000

  /** Why the request body's `question` field is refused. Pydantic checks the
      length constraints before the custom validator runs. */
  datatype QuestionError = TooShort | TooLong | Blank

  /** The `question` field as `QueryRequest` accepts it: the raw text must have
      1 to 1000 characters and must not be whitespace only; the stored question
      is the stripped text. */
  function ValidateQuestion(raw: string): (r: Result<string, QuestionError>)
    ensures r.Success? <==> MinQuestionLength <= |raw| <= MaxQuestionLength && !IsBlank(raw)
    ensures r.Success? ==> r.value == Strip(raw)
    ensures r.Success? ==> 1 <= |r.value| <= MaxQuestionLength
                           && !IsSpace(r.value[0]) && !IsSpace(r.value[|r.value| - 1])
    ensures |raw| < MinQuestionLength ==> r == Failure(TooShort)
    ensures |raw| > MaxQuestionLength ==> r == Failure(TooLong)
    ensures MinQuestionLength <= |raw| <= MaxQuestionLength && IsBlank(raw) ==> r == Failure(Blank)
  {
    if |raw| < MinQuestionLength then Failure(TooShort)
    else if |raw| > MaxQuestionLength then Failure(TooLong)
    else
      var stripped := Strip(raw);
      if stripped == [] then Failure(Blank) else Success(stripped)
  }

  /** Validation is idempotent: an accepted question is accepted again as it is. */
  lemma ValidateQuestionIdempotent(raw: string)
    requires ValidateQuestion(raw).Success?
    ensures ValidateQuestion(ValidateQuestion(raw).value) == ValidateQuestion(raw)
  {
    StripIdempotent(raw);
  }

  /** One message of the agent's conversation state. */
  datatype Message = Message(content: string)

  /** What `react_app.invoke` returns: a state dictionary holding a
      `messages` list, or any other object, carried with its `str()` text. */
  datatype AgentOutput =
    | MessagesState(messages: seq<Message>)
    | OtherOutput(rendered: string)

  /** A Python exception: whether it is a `ValueError` (or a subclass) and its
      `str()` text. */
  datatype PyException = PyException(isValueError: bool, text: string)

  /** The outcome of invoking the agent on a question. */
  datatype Invocation = Returned(output: AgentOutput) | Raised(exception: PyException)

  /** The compiled agent graph, as a function from the question to what its
      invocation does. */
  type Agent = string -> Invocation

  /** An `HTTPException` a handler raises. */
  datatype HttpError = HttpError(status: int, detail: string)

  /** One field error of a refused request body. */
  datatype RequestError = InvalidQuestion(reason: QuestionError) | InvalidTripDetails

  /** The question's field errors: none when it is accepted, else its reason. */
  function QuestionErrors(raw: string): (r: seq<RequestError>)
    ensures r == [] <==> ValidateQuestion(raw).Success?
    ensures r != [] ==> r == [InvalidQuestion(ValidateQuestion(raw).error)]
  {
    match ValidateQuestion(raw)
    case Success(_) => []
    case Failure(reason) => [InvalidQuestion(reason)]
  }

  /** What a query endpoint answers: the body was refused by request
      validation with its field errors in declaration order, the handler
      raised an `HTTPException`, or it returned. */
  datatype Response<T> = Rejected(errors: seq<RequestError>) | Error(error: HttpError) | Ok(body: T)

  /** The text of the `IndexError` that `[][-1]` raises. */
  const IndexErrorText: string := "list index out of range"

  /** The answer text: the content of the last message when the output is a
      state dictionary with `messages`, the output's `str()` otherwise; an
      empty `messages` list raises `IndexError`. */
  function FinalAnswer(output: AgentOutput): (r: Result<string, PyException>)
    ensures output.MessagesState? && output.messages != [] ==>
              r == Success(output.messages[|output.messages| - 1].content)
    ensures output.MessagesState? && output.messages == [] ==>
              r == Failure(PyException(false, IndexErrorText))
    ensures output.OtherOutput? ==> r == Success(output.rendered)
  {
    match output
    case MessagesState(messages) =>
      if messages == [] then Failure(PyException(false, IndexErrorText))
      else Success(messages[|messages| - 1].content)
    case OtherOutput(rendered) => Success(rendered)
  }

  /** Appending a message to the conversation makes it the answer: only the
      last message matters. */
  lemma FinalAnswerIsLastMessage(history: seq<Message>, last: Message)
    ensures FinalAnswer(MessagesState(history + [last])) == Success(last.content)
  {
  }
}

=== FILE: app_main.dfy ===
/** The backend service's query endpoint (`/query` and `/api/query`): request
    validation, the call into the agent, the answer, the excerpt and trip
    payload stored with it, and the mapping of failures to HTTP statuses. */
module AppMain {
  import opened Wrappers
  import opened PyStr
  import opened Values
  import opened Api

  /** The optional trip form sent with a question (`TripDetails`). */
  datatype TripDetails = TripDetails(
    origin: Option<string>,
    destination: Option<string>,
    numberOfPeople: Option<int>,
    duration: Option<string>,
    budget: Option<string>,
    travelDates: Option<string>,
    accommodation: Option<string>,
    tripType: Option<string>,
    transportation: Option<string>)

  /** The `tripDetails` field of a request body as pydantic reads it: absent
      or `null`, not a valid `TripDetails` (a wrong type such as a
      non-integer `numberOfPeople`), or the parsed form. */
  datatype TripDetailsField = Absent | Malformed | Given(details: TripDetails)

  /** The parsed trip details of a field that is not malformed. */
  function ParsedDetails(f: TripDetailsField): Option<TripDetails> {
    match f
    case Given(d) => Some(d)
    case _ => None
  }

  /** The Python field names of `TripDetails` (`by_alias=False`). */
  const TripFieldNames: set<string> :=
    {"origin", "destination", "number_of_people", "duration", "budget",
     "travel_dates", "accommodation", "trip_type", "transportation"}

  function StrField(v: Option<string>): Option<Value> {
    match v
    case None => None
    case Some(s) => Some(Str(s))
  }

  /** The value of the field called `name`, `None` when it is unset or when
      `TripDetails` has no such field. */
  function FieldValue(d: TripDetails, name: string): (r: Option<Value>)
    ensures name !in TripFieldNames ==> r.None?
    ensures r.Some? && name == "number_of_people" ==> r.value.Int?
    ensures r.Some? && name != "number_of_people" ==> r.value.Str?
  {
    if name == "origin" then StrField(d.origin)
    else if name == "destination" then StrField(d.destination)
    else if name == "number_of_people" then
      (match d.numberOfPeople case None => None case Some(n) => Some(Int(n)))
    else if name == "duration" then StrField(d.duration)
    else if name == "budget" then StrField(d.budget)
    else if name == "travel_dates" then StrField(d.travelDates)
    else if name == "accommodation" then StrField(d.accommodation)
    else if name == "trip_type" then StrField(d.tripType)
    else if name == "transportation" then StrField(d.transportation)
    else None
  }

  /** `trip_details.dict(by_alias=False, exclude_none=True)`, or `{}` when the
      request carried no trip details: exactly the fields that are set. */
  function TripPayload(details: Option<TripDetails>): (r: map<string, Value>)
    ensures details.None? ==> r == map[]
    ensures details.Some? ==> forall name :: name in r <==> FieldValue(details.value, name).Some?
    ensures details.Some? ==> forall name :: name in r ==> r[name] == FieldValue(details.value, name).value
    ensures r.Keys <= TripFieldNames
  {
    match details
    case None => map[]
    case Some(d) =>
      map name | name in TripFieldNames && FieldValue(d, name).Some? :: FieldValue(d, name).value
  }

  /** Each set field of the form is in the payload under its Python name,
      holding its value; an unset field is absent. */
  lemma TripPayloadFields(d: TripDetails)
    ensures var p := TripPayload(Some(d));
            && ("origin" in p <==> d.origin.Some?)
            && (d.origin.Some? ==> p["origin"] == Str(d.origin.value))
            && ("destination" in p <==> d.destination.Some?)
            && (d.destination.Some? ==> p["destination"] == Str(d.destination.value))
            && ("number_of_people" in p <==> d.numberOfPeople.Some?)
            && (d.numberOfPeople.Some? ==> p["number_of_people"] == Int(d.numberOfPeople.value))
            && ("duration" in p <==> d.duration.Some?)
            && (d.duration.Some? ==> p["duration"] == Str(d.duration.value))
            && ("budget" in p <==> d.budget.Some?)
            && (d.budget.Some? ==> p["budget"] == Str(d.budget.value))
            && ("travel_dates" in p <==> d.travelDates.Some?)
            && (d.travelDates.Some? ==> p["travel_dates"] == Str(d.travelDates.value))
            && ("accommodation" in p <==> d.accommodation.Some?)
            && (d.accommodation.Some? ==> p["accommodation"] == Str(d.accommodation.value))
            && ("trip_type" in p <==> d.tripType.Some?)
            && (d.tripType.Some? ==> p["trip_type"] == Str(d.tripType.value))
            && ("transportation" in p <==> d.transportation.Some?)
            && (d.transportation.Some? ==> p["transportation"] == Str(d.transportation.value))
  {
  }

  /** A string column of `Trip` filled from keyword `name`, `None` when the
      keyword is not passed. */
  function StrColumn(p: map<string, Value>, name: string): Option<string> {
    if name in p && p[name].Str? then Some(p[name].s) else None
  }

  /** The trip columns `Trip(**trip_data)` fills from a payload: each column
      from the keyword of the same name, unset when it is not passed. */
  function TripColumns(p: map<string, Value>): (d: TripDetails)
    ensures "origin" !in p ==> d.origin.None?
    ensures "number_of_people" !in p ==> d.numberOfPeople.None?
  {
    TripDetails(
      StrColumn(p, "origin"), StrColumn(p, "destination"),
      if "number_of_people" in p && p["number_of_people"].Int? then Some(p["number_of_people"].i) else None,
      StrColumn(p, "duration"), StrColumn(p, "budget"), StrColumn(p, "travel_dates"),
      StrColumn(p, "accommodation"), StrColumn(p, "trip_type"), StrColumn(p, "transportation"))
  }

  /** The stored trip gets back exactly the form it was sent with: the payload
      loses no field and mixes none up. */
  lemma TripPayloadRoundTrip(d: TripDetails)
    ensures TripColumns(TripPayload(Some(d))) == d
  {
    TripPayloadFields(d);
  }

  /** A form with every field set yields all nine fields; an empty form yields
      nothing. */
  lemma TripPayloadExtremes(d: TripDetails)
    ensures (&& d.origin.Some? && d.destination.Some? && d.numberOfPeople.Some?
             && d.duration.Some? && d.budget.Some? && d.travelDates.Some?
             && d.accommodation.Some? && d.tripType.Some? && d.transportation.Some?) ==>
              TripPayload(Some(d)).Keys == TripFieldNames
    ensures d == TripDetails(None, None, None, None, None, None, None, None, None) ==>
              TripPayload(Some(d)) == map[]
  {
    TripPayloadFields(d);
  }

  /** The index of the first non-blank line at or after `from`, or `|lines|`. */
  function FirstNonBlankLine(lines: seq<string>, from: nat): (k: nat)
    requires from <= |lines|
    ensures from <= k <= |lines|
    ensures forall j :: from <= j < k ==> IsBlank(lines[j])
    ensures k < |lines| ==> !IsBlank(lines[k])
    decreases |lines| - from
  {
    if from == |lines| || !IsBlank(lines[from]) then from else FirstNonBlankLine(lines, from + 1)
  }

  /** The stored excerpt: the first line of the answer that is not blank,
      stripped; `None` exactly when the whole answer is blank. */
  function Excerpt(answer: string): (r: Option<string>)
    ensures r.None? <==> IsBlank(answer)
    ensures r.Some? ==> r.value != [] && !IsSpace(r.value[0]) && !IsSpace(r.value[|r.value| - 1])
    ensures r.Some? ==> exists k :: 0 <= k < |SplitLines(answer)|
                           && r.value == Strip(SplitLines(answer)[k])
                           && AllBlank(SplitLines(answer)[..k])
  {
    var lines := SplitLines(answer);
    var k := FirstNonBlankLine(lines, 0);
    SplitLinesBlank(answer);
    assert AllBlank(lines[..k]);
    if k == |lines| then
      assert lines[..k] == lines;
      None
    else
      Some(Strip(lines[k]))
  }

  /** There is no excerpt exactly when every line of the answer is blank. */
  lemma NoExcerptIffAllLinesBlank(answer: string)
    ensures Excerpt(answer).None? <==> AllBlank(SplitLines(answer))
  {
    SplitLinesBlank(answer);
  }

  /** The answer's first line, when it is not blank, is the excerpt once
      stripped, whichever boundary ends it and whatever follows. */
  lemma ExcerptOfLeadingLine(line: string, b: char, rest: string)
    requires !IsBlank(line) && NoLineBreak(line) && IsLineBreak(b)
    ensures Excerpt(line + [b] + rest) == Some(Strip(line))
  {
    if b == '\r' && rest != [] && rest[0] == '\n' {
      assert line + [b] + rest == line + "\r\n" + rest[1..];
      SplitLinesCrLf(line, rest[1..]);
    } else {
      SplitLinesBreak(line, b, rest);
    }
  }

  /** An answer of one non-blank line has that line, stripped, as its excerpt. */
  lemma ExcerptOfSingleLine(line: string)
    requires !IsBlank(line) && NoLineBreak(line)
    ensures Excerpt(line) == Some(Strip(line))
  {
    SplitLinesLastLine(line);
  }

  /** The agent is not initialized. */
  const AgentUnavailable: HttpError := HttpError(503, "AI agent not initialized or unavailable")

  const ModelDecommissionedMarker: string := "model_decommissioned"

  /** The HTTP error `_process_query` answers an exception with: `ValueError`
      first, then the decommissioned-model text, then everything else. */
  function ErrorFor(e: PyException): (r: HttpError)
    ensures r.status == 400 <==> e.isValueError
    ensures r.status == 503 <==> !e.isValueError && Contains(e.text, ModelDecommissionedMarker)
    ensures r.status == 500 <==> !e.isValueError && !Contains(e.text, ModelDecommissionedMarker)
  {
    if e.isValueError then HttpError(400, "Invalid input provided")
    else if Contains(e.text, ModelDecommissionedMarker) then
      HttpError(503, "Configured LLM model is unavailable. Please update the backend configuration.")
    else HttpError(500, "Internal server error")
  }

  /** The keyword arguments `save_trip` receives (the processing time left out). */
  function TripRecord(question: string, answer: string, excerpt: Option<string>,
                      payload: map<string, Value>): (r: map<string, Value>)
    requires payload.Keys <= TripFieldNames
    ensures r.Keys == payload.Keys + {"question", "answer", "excerpt"}
    ensures r["question"] == Str(question) && r["answer"] == Str(answer)
    ensures r["excerpt"] == (if excerpt.Some? then Str(excerpt.value) else Null)
    ensures forall name :: name in payload ==> r[name] == payload[name]
  {
    var excerptValue := match excerpt case None => Null case Some(e) => Str(e);
    payload + map["question" := Str(question), "answer" := Str(answer), "excerpt" := excerptValue]
  }

  /** A successful query: the answer returned to the client and the record
      handed to the background save. */
  datatype Reply = Reply(answer: string, record: map<string, Value>)

  /** `_process_query` on a validated question. */
  function ProcessQuery(question: string, details: Option<TripDetails>, agent: Option<Agent>)
    : (r: Result<Reply, HttpError>)
    ensures agent.None? ==> r == Failure(AgentUnavailable)
    ensures agent.Some? && agent.value(question).Raised? ==>
              r == Failure(ErrorFor(agent.value(question).exception))
    ensures r.Success? <==>
              agent.Some? && agent.value(question).Returned?
              && FinalAnswer(agent.value(question).output).Success?
    ensures r.Success? ==>
              && r.value.answer == FinalAnswer(agent.value(question).output).value
              && r.value.record == TripRecord(question, r.value.answer, Excerpt(r.value.answer),
                                              TripPayload(details))
    ensures r.Failure? ==> r.error.status in {400, 500, 503}
  {
    match agent
    case None => Failure(AgentUnavailable)
    case Some(invoke) =>
      match invoke(question)
      case Raised(e) => Failure(ErrorFor(e))
      case Returned(output) =>
        match FinalAnswer(output)
        case Failure(e) => Failure(ErrorFor(e))
        case Success(answer) =>
          var payload := TripPayload(details);
          Success(Reply(answer, TripRecord(question, answer, Excerpt(answer), payload)))
  }

  /** An agent state with no messages is an internal error. */
  lemma EmptyMessagesIsInternalError(question: string, details: Option<TripDetails>, invoke: Agent)
    requires invoke(question) == Returned(MessagesState([]))
    ensures ProcessQuery(question, details, Some(invoke)) == Failure(HttpError(500, "Internal server error"))
  {
    NotContainsWithoutFirstChar(IndexErrorText, ModelDecommissionedMarker);
  }

  /** A valid question with trip details that do not parse is refused for
      the trip details alone, whatever the agent would do. */
  lemma MalformedTripDetailsRefused(rawQuestion: string, agent: Option<Agent>)
    requires ValidateQuestion(rawQuestion).Success?
    ensures QueryEndpoint(rawQuestion, Malformed, agent) == Rejected([InvalidTripDetails])
  {
  }

  /** The `/query` and `/api/query` endpoints: request validation of both
      fields, then `_process_query` on the stripped question. */
  function QueryEndpoint(rawQuestion: string, details: TripDetailsField, agent: Option<Agent>)
    : (r: Response<Reply>)
    ensures r.Rejected? <==> ValidateQuestion(rawQuestion).Failure? || details.Malformed?
    ensures r.Rejected? ==>
              r.errors == QuestionErrors(rawQuestion) + (if details.Malformed? then [InvalidTripDetails] else [])
    ensures r.Ok? ==> ProcessQuery(Strip(rawQuestion), ParsedDetails(details), agent) == Success(r.body)
    ensures r.Error? ==> ProcessQuery(Strip(rawQuestion), ParsedDetails(details), agent) == Failure(r.error)
  {
    var errors := QuestionErrors(rawQuestion) + (if details.Malformed? then [InvalidTripDetails] else []);
    if errors != [] then Rejected(errors)
    else
      match ProcessQuery(Strip(rawQuestion), ParsedDetails(details), agent)
      case Success(reply) => Ok(reply)
      case Failure(e) => Error(e)
  }
}

=== FILE: config_loader.dfy ===
/** Loading the YAML configuration file and checking that it names a usable
    LLM provider. The filesystem is a map from paths to entries and the YAML
    parser's result is part of a file entry. */
module ConfigLoader {
  import opened Wrappers
  import opened Values

  type Config = map<string, Value>
  type Env = map<string, string>

  /** Everything loading and validating can raise. The first three are
      `FileNotFoundError`, `ValueError` and `yaml.YAMLError` from loading;
      the rest are the `ValueError`s of the structure check. */
  datatype ConfigError =
    | FileNotFound(path: string)
    | NotAFile(path: string)
    | YamlSyntax(path: string)
    | NotADictionary
    | MissingSection(section: string)
    | LlmNotDictionary
    | NoProvider
    | ProviderNotDictionary(provider: string)
    | MissingModelName(provider: string)

  /** What `yaml.safe_load` makes of a file: a document (`Null` for an empty
      one) or a syntax error. */
  datatype YamlParse = Document(doc: Value) | SyntaxError

  /** A filesystem entry at a path. */
  datatype FsEntry = Directory | File(parse: YamlParse)

  type Fs = map<string, FsEntry>

  const ConfigPathVar: string := "CONFIG_PATH"
  const DefaultConfigPath: string := "config/config.yaml"

  /** Sections that must be present, in the order they are checked. */
  const RequiredSections: seq<string> := ["llm"]

  /** Supported providers, in the order they are checked. */
  const Providers: seq<string> := ["groq", "openai"]

  const ModelNameKey: string := "model_name"

  /** The file `load_config` reads: the argument, else `CONFIG_PATH`, else
      `config/config.yaml`. */
  function ConfigPath(configPath: Option<string>, env: Env): (path: string)
    ensures configPath.Some? ==> path == configPath.value
    ensures configPath.None? && ConfigPathVar in env ==> path == env[ConfigPathVar]
    ensures configPath.None? && ConfigPathVar !in env ==> path == DefaultConfigPath
  {
    match configPath
    case Some(p) => p
    case None => if ConfigPathVar in env then env[ConfigPathVar] else DefaultConfigPath
  }

  /** `load_config`: a missing path, a directory, a YAML syntax error and a
      document that is not a mapping are errors; an empty document loads as the
      empty configuration; a mapping loads as it is. */
  function LoadConfig(configPath: Option<string>, env: Env, fs: Fs): (r: Result<Config, ConfigError>)
    ensures var path := ConfigPath(configPath, env);
            && (path !in fs ==> r == Failure(FileNotFound(path)))
            && (path in fs && fs[path].Directory? ==> r == Failure(NotAFile(path)))
            && (path in fs && fs[path] == File(SyntaxError) ==> r == Failure(YamlSyntax(path)))
            && (path in fs && fs[path] == File(Document(Null)) ==> r == Success(map[]))
            && ((path in fs && fs[path].File? && fs[path].parse.Document? && fs[path].parse.doc.Dict?)
                ==> r == Success(fs[path].parse.doc.entries))
            && (r.Success? ==> path in fs && fs[path].File? && fs[path].parse.Document?
                               && (fs[path].parse.doc == Null || fs[path].parse.doc == Dict(r.value)))
            && ((path in fs && fs[path].File? && fs[path].parse.Document?
                 && fs[path].parse.doc != Null && !fs[path].parse.doc.Dict?) ==> r == Failure(NotADictionary))
  {
    var path := ConfigPath(configPath, env);
    if path !in fs then Failure(FileNotFound(path))
    else
      match fs[path]
      case Directory => Failure(NotAFile(path))
      case File(SyntaxError) => Failure(YamlSyntax(path))
      case File(Document(doc)) =>
        match doc
        case Null => Success(map[])
        case Dict(entries) => Success(entries)
        case _ => Failure(NotADictionary)
  }

  /** The loop over required sections: the first one absent from `config`. */
  function FirstMissingSection(sections: seq<string>, config: Config): (r: Option<string>)
    ensures r.None? <==> forall i :: 0 <= i < |sections| ==> sections[i] in config
    ensures r.Some? ==> exists i :: 0 <= i < |sections| && sections[i] == r.value && r.value !in config
                          && forall j :: 0 <= j < i ==> sections[j] in config
    decreases |sections|
  {
    if sections == [] then None
    else if sections[0] !in config then Some(sections[0])
    else
      var r := FirstMissingSection(sections[1..], config);
      assert forall i :: 1 <= i < |sections| ==> sections[i] == sections[1..][i - 1];
      r
  }

  /** One provider's section is usable: a mapping with a `model_name`. */
  predicate ProviderOk(section: Value) {
    section.Dict? && ModelNameKey in section.entries
  }

  /** The error a present provider section raises, if any. */
  function ProviderError(provider: string, section: Value): (r: Option<ConfigError>)
    ensures r.None? <==> ProviderOk(section)
    ensures r.Some? ==> r.value == (if section.Dict? then MissingModelName(provider)
                                    else ProviderNotDictionary(provider))
  {
    if !section.Dict? then Some(ProviderNotDictionary(provider))
    else if ModelNameKey !in section.entries then Some(MissingModelName(provider))
    else None
  }

  /** The loop over providers: the first present provider whose section is not
      usable decides the error; a provider that is absent is skipped. */
  function CheckProviders(llm: map<string, Value>, providers: seq<string>): (r: Outcome<ConfigError>)
    ensures r.Pass? <==> forall i :: 0 <= i < |providers| && providers[i] in llm ==>
                                       ProviderOk(llm[providers[i]])
    ensures r.Fail? ==> exists i :: 0 <= i < |providers| && providers[i] in llm
                          && ProviderError(providers[i], llm[providers[i]]) == Some(r.error)
                          && forall j :: 0 <= j < i && providers[j] in llm ==> ProviderOk(llm[providers[j]])
    decreases |providers|
  {
    if providers == [] then Pass
    else
      var p := providers[0];
      if p in llm && ProviderError(p, llm[p]).Some? then Fail(ProviderError(p, llm[p]).value)
      else
        var rest := CheckProviders(llm, providers[1..]);
        assert forall i :: 1 <= i < |providers| ==> providers[i] == providers[1..][i - 1];
        rest
  }

  /** The configuration the structure check accepts, stated declaratively. */
  predicate WellFormed(config: Config) {
    && "llm" in config
    && config["llm"].Dict?
    && ("groq" in config["llm"].entries || "openai" in config["llm"].entries)
    && forall p :: p in Providers && p in config["llm"].entries ==> ProviderOk(config["llm"].entries[p])
  }

  /** `validate_config_structure`: `Pass` (the `True` result) or the first
      `ValueError` in the source's order. */
  function ValidateConfigStructure(config: Config): (r: Outcome<ConfigError>)
    ensures r.Pass? <==> WellFormed(config)
    ensures "llm" !in config ==> r == Fail(MissingSection("llm"))
    ensures "llm" in config && !config["llm"].Dict? ==> r == Fail(LlmNotDictionary)
    ensures ("llm" in config && config["llm"].Dict?
             && "groq" !in config["llm"].entries && "openai" !in config["llm"].entries) ==> r == Fail(NoProvider)
    ensures ("llm" in config && config["llm"].Dict?
             && ("groq" in config["llm"].entries || "openai" in config["llm"].entries))
            ==> r == CheckProviders(config["llm"].entries, Providers)
    ensures r.Fail? && r.error.ProviderNotDictionary? ==> r.error.provider in Providers
    ensures r.Fail? && r.error.MissingModelName? ==> r.error.provider in Providers
  {
    var missing := FirstMissingSection(RequiredSections, config);
    if missing.Some? then Fail(MissingSection(missing.value))
    else
      var llm := config["llm"];
      if !llm.Dict? then Fail(LlmNotDictionary)
      else if !(exists i :: 0 <= i < |Providers| && Providers[i] in llm.entries) then
        assert Providers[0] !in llm.entries && Providers[1] !in llm.entries;
        Fail(NoProvider)
      else
        var r := CheckProviders(llm.entries, Providers);
        assert forall p :: p in Providers <==> p == Providers[0] || p == Providers[1];
        r
  }

  /** `groq` is checked before `openai`: an unusable `groq` section is the
      reported error even when the `openai` section is unusable too. */
  lemma GroqCheckedFirst(config: Config)
    requires "llm" in config && config["llm"].Dict?
    requires "groq" in config["llm"].entries && !ProviderOk(config["llm"].entries["groq"])
    ensures ValidateConfigStructure(config) == Fail(ProviderError("groq", config["llm"].entries["groq"]).value)
  {
  }

  /** Only the `llm` section, and in it only the `groq` and `openai` entries,
      decide the verdict: other top-level sections and other provider keys do
      not matter. */
  lemma ExtraKeysIrrelevant(config: Config, other: Config)
    requires "llm" in config <==> "llm" in other
    requires "llm" in config ==> config["llm"].Dict? == other["llm"].Dict?
    requires "llm" in config && config["llm"].Dict? ==>
               forall p :: p in Providers ==>
                 (p in config["llm"].entries <==> p in other["llm"].entries)
                 && (p in config["llm"].entries ==> config["llm"].entries[p] == other["llm"].entries[p])
    ensures ValidateConfigStructure(config) == ValidateConfigStructure(other)
  {
  }

  /** `load_and_validate_config`: the loaded configuration, unchanged, when it
      passes the structure check; otherwise the first error. */
  function LoadAndValidateConfig(configPath: Option<string>, env: Env, fs: Fs)
    : (r: Result<Config, ConfigError>)
    ensures r.Success? <==> LoadConfig(configPath, env, fs).Success?
                            && WellFormed(LoadConfig(configPath, env, fs).value)
    ensures r.Success? ==> r == LoadConfig(configPath, env, fs)
    ensures LoadConfig(configPath, env, fs).Failure? ==> r == LoadConfig(configPath, env, fs)
    ensures LoadConfig(configPath, env, fs).Success? && r.Failure? ==>
              ValidateConfigStructure(LoadConfig(configPath, env, fs).value) == Fail(r.error)
  {
    var config :- LoadConfig(configPath, env, fs);
    match ValidateConfigStructure(config)
    case Pass => Success(config)
    case Fail(e) => Failure(e)
  }

  /** An empty configuration file loads, but is then refused for lacking the
      `llm` section. */
  lemma EmptyFileRefused(configPath: Option<string>, env: Env, fs: Fs)
    requires ConfigPath(configPath, env) in fs
    requires fs[ConfigPath(configPath, env)] == File(Document(Null))
    ensures LoadAndValidateConfig(configPath, env, fs) == Failure(MissingSection("llm"))
  {
  }
}

=== FILE: database.dfy ===
/** The database settings derived from the environment: the connection URL
    with its driver normalised, and the keyword arguments the engine is
    created with. The environment is a map; Python's `int()`, SQLAlchemy's
    `make_url` and its dialect registry are parameters. */
module Database {
  import opened Wrappers
  import opened Values

  type Env = map<string, string>

  /** Python's `int(text)`: the integer, or `None` where it raises `ValueError`. */
  type IntParser = string -> Option<int>

  /** The parts of a SQLAlchemy `URL` the settings depend on. `driver` is
      `None` when the driver name has no `+driver` part. */
  datatype Url = Url(
    backend: string,
    driver: Option<string>,
    username: Option<string>,
    password: Option<string>,
    host: Option<string>,
    port: Option<int>,
    database: Option<string>,
    query: map<string, string>)

  /** `os.getenv(name)`. */
  function GetEnv(env: Env, name: string): Option<string> {
    if name in env then Some(env[name]) else None
  }

  /** Python truthiness of an optional string: set and not empty. */
  predicate Truthy(v: Option<string>) {
    v.Some? && v.value != ""
  }

  /** `_coerce_int_env`: the variable's integer value; the default when it is
      unset or not an integer, never an error. */
  function CoerceIntEnv(env: Env, name: string, default: int, parseInt: IntParser): (r: int)
    ensures name !in env ==> r == default
    ensures name in env && parseInt(env[name]).Some? ==> r == parseInt(env[name]).value
    ensures name in env && parseInt(env[name]).None? ==> r == default
  {
    match GetEnv(env, name)
    case None => default
    case Some(text) =>
      match parseInt(text)
      case Some(n) => n
      case None => default
  }

  /** One pool setting: engine keyword, environment variable, default. */
  datatype PoolSetting = PoolSetting(key: string, envVar: string, default: int)

  const PoolSettings: seq<PoolSetting> := [
    PoolSetting("pool_size", "DATABASE_POOL_SIZE", 5),
    PoolSetting("max_overflow", "DATABASE_MAX_OVERFLOW", 10),
    PoolSetting("pool_timeout", "DATABASE_POOL_TIMEOUT", 30),
    PoolSetting("pool_recycle", "DATABASE_POOL_RECYCLE", 1800)
  ]

  const PoolKeys: set<string> := {"pool_size", "max_overflow", "pool_timeout", "pool_recycle"}
  const BaseKeys: set<string> := {"echo", "pool_pre_ping"}

  const SslModeVar: string := "DATABASE_SSL_MODE"
  const SslRootCertVar: string := "DATABASE_SSL_ROOT_CERT"

  /** The `connect_args` of a server database: `sslmode` and `sslrootcert`,
      each only when its variable is set and not empty. */
  function SslConnectArgs(env: Env): (r: map<string, Value>)
    ensures "sslmode" in r <==> Truthy(GetEnv(env, SslModeVar))
    ensures "sslmode" in r ==> r["sslmode"] == Str(env[SslModeVar])
    ensures "sslrootcert" in r <==> Truthy(GetEnv(env, SslRootCertVar))
    ensures "sslrootcert" in r ==> r["sslrootcert"] == Str(env[SslRootCertVar])
    ensures r.Keys <= {"sslmode", "sslrootcert"}
  {
    var mode := GetEnv(env, SslModeVar);
    var cert := GetEnv(env, SslRootCertVar);
    (if Truthy(mode) then map["sslmode" := Str(mode.value)] else map[])
    + (if Truthy(cert) then map["sslrootcert" := Str(cert.value)] else map[])
  }

  /** The four pool settings, each read from its variable with its default. */
  function PoolKwargs(env: Env, parseInt: IntParser): (r: map<string, Value>)
    ensures r.Keys == PoolKeys
    ensures forall s :: s in PoolSettings ==> s.key in r && r[s.key] == Int(CoerceIntEnv(env, s.envVar, s.default, parseInt))
  {
    map[
      "pool_size" := Int(CoerceIntEnv(env, "DATABASE_POOL_SIZE", 5, parseInt)),
      "max_overflow" := Int(CoerceIntEnv(env, "DATABASE_MAX_OVERFLOW", 10, parseInt)),
      "pool_timeout" := Int(CoerceIntEnv(env, "DATABASE_POOL_TIMEOUT", 30, parseInt)),
      "pool_recycle" := Int(CoerceIntEnv(env, "DATABASE_POOL_RECYCLE", 1800, parseInt))
    ]
  }

  /** An SSL setting is given: `DATABASE_SSL_MODE` or `DATABASE_SSL_ROOT_CERT`
      is set and not empty. */
  predicate HasSslSetting(env: Env) {
    Truthy(GetEnv(env, SslModeVar)) || Truthy(GetEnv(env, SslRootCertVar))
  }

  /** The engine keywords of a server database: the base flags, the four pool
      settings, and `connect_args` exactly when an SSL setting is given. */
  function ServerEngineKwargs(env: Env, parseInt: IntParser): (r: map<string, Value>)
    ensures r.Keys == BaseKeys + PoolKeys + (if HasSslSetting(env) then {"connect_args"} else {})
    ensures "echo" in r && r["echo"] == Bool(false)
    ensures "pool_pre_ping" in r && r["pool_pre_ping"] == Bool(true)
    ensures forall s :: s in PoolSettings ==>
              s.key in r && r[s.key] == Int(CoerceIntEnv(env, s.envVar, s.default, parseInt))
    ensures "connect_args" in r ==> r["connect_args"] == Dict(SslConnectArgs(env))
  {
    var pooled := map["echo" := Bool(false), "pool_pre_ping" := Bool(true)] + PoolKwargs(env, parseInt);
    var args := SslConnectArgs(env);
    assert args == map[] <==> !HasSslSetting(env) by {
      if args == map[] {
        assert "sslmode" !in args && "sslrootcert" !in args;
      }
    }
    if args == map[] then pooled else pooled["connect_args" := Dict(args)]
  }

  /** `_build_engine_kwargs`. SQLite gets no pool settings and only
      `check_same_thread=False`; any other backend gets the four pool
      settings from the environment and `connect_args` only when an SSL
      setting is given. */
  function BuildEngineKwargs(url: Url, env: Env, parseInt: IntParser): (r: map<string, Value>)
    ensures "echo" in r && r["echo"] == Bool(false)
    ensures "pool_pre_ping" in r && r["pool_pre_ping"] == Bool(true)
    ensures url.backend == "sqlite" ==>
              r.Keys == BaseKeys + {"connect_args"}
              && r["connect_args"] == Dict(map["check_same_thread" := Bool(false)])
    ensures url.backend != "sqlite" ==>
              forall s :: s in PoolSettings ==>
                s.key in r && r[s.key] == Int(CoerceIntEnv(env, s.envVar, s.default, parseInt))
    ensures url.backend != "sqlite" ==>
              ("connect_args" in r <==> Truthy(GetEnv(env, SslModeVar)) || Truthy(GetEnv(env, SslRootCertVar)))
    ensures url.backend != "sqlite" && "connect_args" in r ==> r["connect_args"] == Dict(SslConnectArgs(env))
    ensures url.backend != "sqlite" ==>
              r.Keys == BaseKeys + PoolKeys + (if "connect_args" in r then {"connect_args"} else {})
  {
    if url.backend == "sqlite" then
      map["echo" := Bool(false), "pool_pre_ping" := Bool(true),
          "connect_args" := Dict(map["check_same_thread" := Bool(false)])]
    else
      ServerEngineKwargs(env, parseInt)
  }

  /** With none of the pool variables set, a server database gets pool size 5,
      overflow 10, timeout 30 and recycle 1800. */
  lemma DefaultPoolSettings(url: Url, env: Env, parseInt: IntParser)
    requires url.backend != "sqlite"
    requires forall s :: s in PoolSettings ==> s.envVar !in env
    ensures var r := BuildEngineKwargs(url, env, parseInt);
            && r["pool_size"] == Int(5) && r["max_overflow"] == Int(10)
            && r["pool_timeout"] == Int(30) && r["pool_recycle"] == Int(1800)
  {
  }

  /** SQLAlchemy's dialect registry: the default driver of the dialect named
      by a backend, or `None` when no dialect of that name can be loaded. */
  type DialectLookup = string -> Option<string>

  /** `URL.get_driver_name()`: the URL's own `+driver` part, otherwise the
      default driver of its backend's dialect; `None` where loading that
      dialect raises `NoSuchModuleError`. */
  function DriverName(url: Url, dialects: DialectLookup): Option<string> {
    if url.driver.Some? then url.driver else dialects(url.backend)
  }

  /** Backend and driver name for which `_normalize_driver` switches to
      `psycopg`: PostgreSQL with an empty driver name or `psycopg2`. The
      `None` alternative of the source's test never arises, because
      `get_driver_name()` returns a string or raises. */
  predicate NeedsPsycopg(backend: string, driverName: string) {
    backend == "postgresql" && driverName in {"", "psycopg2"}
  }

  /** `_normalize_driver`: fails when the driver name cannot be found (no
      `+driver` and no loadable dialect); otherwise PostgreSQL URLs with an
      empty or `psycopg2` driver name are switched to `psycopg` and every
      other URL is returned as it is. */
  function NormalizeDriver(url: Url, dialects: DialectLookup): (r: Result<Url, DatabaseError>)
    ensures r.Failure? <==> url.driver.None? && dialects(url.backend).None?
    ensures r.Failure? ==> r.error == NoSuchDialect(url.backend)
    ensures url.driver.Some? && NeedsPsycopg(url.backend, url.driver.value) ==>
              r == Success(url.(driver := Some("psycopg")))
    ensures (url.driver.None? && dialects(url.backend).Some?
             && NeedsPsycopg(url.backend, dialects(url.backend).value)) ==>
              r == Success(url.(driver := Some("psycopg")))
    ensures url.driver.Some? && !NeedsPsycopg(url.backend, url.driver.value) ==> r == Success(url)
    ensures (url.driver.None? && dialects(url.backend).Some?
             && !NeedsPsycopg(url.backend, dialects(url.backend).value)) ==> r == Success(url)
    ensures r.Success? ==> r.value.backend == url.backend
  {
    match DriverName(url, dialects)
    case None => Failure(NoSuchDialect(url.backend))
    case Some(name) =>
      if NeedsPsycopg(url.backend, name) then Success(url.(driver := Some("psycopg"))) else Success(url)
  }

  /** Normalising a normalised URL changes nothing, and its driver name no
      longer needs switching. */
  lemma NormalizeDriverIdempotent(url: Url, dialects: DialectLookup)
    requires NormalizeDriver(url, dialects).Success?
    ensures var u := NormalizeDriver(url, dialects).value;
            && NormalizeDriver(u, dialects) == Success(u)
            && DriverName(u, dialects).Some?
            && !NeedsPsycopg(u.backend, DriverName(u, dialects).value)
  {
  }

  /** A plain `postgresql://` URL takes the dialect's default driver,
      `psycopg2`, and is therefore switched to `psycopg`. */
  lemma PlainPostgresqlGetsPsycopg(url: Url, dialects: DialectLookup)
    requires url.backend == "postgresql" && url.driver.None?
    requires dialects("postgresql") == Some("psycopg2")
    ensures NormalizeDriver(url, dialects) == Success(url.(driver := Some("psycopg")))
  {
  }

  const DatabaseUrlVar: string := "DATABASE_URL"
  const DefaultSqliteUrl: string := "sqlite:///data/trips.db"

  /** The import-time failures: `_parse_database_url` raises `RuntimeError`,
      and `get_driver_name()` raises `NoSuchModuleError` for a backend with
      no dialect. */
  datatype DatabaseError = InvalidDatabaseUrl(raw: string) | NoSuchDialect(backend: string)

  /** `PARSED_DATABASE_URL`: `DATABASE_URL` (the SQLite default when unset),
      parsed and then normalised. */
  function ConfiguredUrl(env: Env, parseUrl: string -> Option<Url>, dialects: DialectLookup): (r: Result<Url, DatabaseError>)
    ensures var raw := if DatabaseUrlVar in env then env[DatabaseUrlVar] else DefaultSqliteUrl;
            && (parseUrl(raw).None? ==> r == Failure(InvalidDatabaseUrl(raw)))
            && (parseUrl(raw).Some? ==> r == NormalizeDriver(parseUrl(raw).value, dialects))
    ensures r.Success? ==> DriverName(r.value, dialects).Some?
                           && !NeedsPsycopg(r.value.backend, DriverName(r.value, dialects).value)
  {
    var raw := if DatabaseUrlVar in env then env[DatabaseUrlVar] else DefaultSqliteUrl;
    match parseUrl(raw)
    case None => Failure(InvalidDatabaseUrl(raw))
    case Some(url) => NormalizeDriver(url, dialects)
  }

  /** A `DATABASE_URL` with the old `postgres` scheme and no driver fails at
      start-up when no dialect of that name exists, as in SQLAlchemy 1.4 and
      later. */
  lemma LegacyPostgresSchemeRefused(env: Env, parseUrl: string -> Option<Url>, dialects: DialectLookup)
    requires DatabaseUrlVar in env
    requires parseUrl(env[DatabaseUrlVar]).Some?
    requires parseUrl(env[DatabaseUrlVar]).value.backend == "postgres"
    requires parseUrl(env[DatabaseUrlVar]).value.driver.None?
    requires dialects("postgres").None?
    ensures ConfiguredUrl(env, parseUrl, dialects) == Failure(NoSuchDialect("postgres"))
  {
  }
}

=== FILE: legacy_main.dfy ===
/** The standalone service's `/query` endpoint: the same request rule and
    answer extraction as the backend service, but no availability check and
    no special case for a decommissioned model. */
module LegacyMain {
  import opened Wrappers
  import opened PyStr
  import opened Api
  import AppMain

  /** The HTTP error `query_travel_agent` answers an exception with. */
  function ErrorFor(e: PyException): (r: HttpError)
    ensures r.status == 400 <==> e.isValueError
    ensures r.status == 500 <==> !e.isValueError
    ensures r.status != 503
  {
    if e.isValueError then HttpError(400, "Invalid input provided")
    else HttpError(500, "Internal server error")
  }

  /** The two services answer an exception alike unless it is a non-`ValueError`
      whose text mentions a decommissioned model: the backend says 503, this
      service says 500. */
  lemma ErrorMappingsAgree(e: PyException)
    ensures !e.isValueError && Contains(e.text, AppMain.ModelDecommissionedMarker) ==>
              AppMain.ErrorFor(e).status == 503 && ErrorFor(e).status == 500
    ensures !(!e.isValueError && Contains(e.text, AppMain.ModelDecommissionedMarker)) ==>
              AppMain.ErrorFor(e) == ErrorFor(e)
  {
  }

  /** `query_travel_agent`: request validation, then the agent on the stripped
      question (the service only starts once the agent is built, so it is
      always there), then the answer or the mapped error. */
  function QueryTravelAgent(rawQuestion: string, agent: Agent): (r: Response<string>)
    ensures r.Rejected? <==> ValidateQuestion(rawQuestion).Failure?
    ensures r.Rejected? ==> r.errors == [InvalidQuestion(ValidateQuestion(rawQuestion).error)]
    ensures !r.Rejected? && agent(Strip(rawQuestion)).Raised? ==>
              r == Error(ErrorFor(agent(Strip(rawQuestion)).exception))
    ensures !r.Rejected? && agent(Strip(rawQuestion)).Returned?
            && FinalAnswer(agent(Strip(rawQuestion)).output).Failure? ==>
              r == Error(ErrorFor(FinalAnswer(agent(Strip(rawQuestion)).output).error))
    ensures r.Ok? <==> !r.Rejected? && agent(Strip(rawQuestion)).Returned?
                       && FinalAnswer(agent(Strip(rawQuestion)).output).Success?
    ensures r.Ok? ==> r.body == FinalAnswer(agent(Strip(rawQuestion)).output).value
    ensures r.Error? ==> r.error.status in {400, 500}
  {
    match ValidateQuestion(rawQuestion)
    case Failure(reason) => Rejected([InvalidQuestion(reason)])
    case Success(question) =>
      match agent(question)
      case Raised(e) => Error(ErrorFor(e))
      case Returned(output) =>
        match FinalAnswer(output)
        case Failure(e) => Error(ErrorFor(e))
        case Success(answer) => Ok(answer)
  }

  /** An agent state with no messages is an internal error here too. */
  lemma EmptyMessagesIsInternalError(rawQuestion: string, agent: Agent)
    requires ValidateQuestion(rawQuestion).Success?
    requires agent(Strip(rawQuestion)) == Returned(MessagesState([]))
    ensures QueryTravelAgent(rawQuestion, agent) == Error(HttpError(500, "Internal server error"))
  {
  }

  /** The `question` rule of this service: a request is refused exactly when
      its question has fewer than 1 or more than 1000 characters or is
      whitespace only, whatever the agent would do; an accepted question
      reaches the agent stripped. */
  lemma QuestionRule(rawQuestion: string, agent: Agent)
    ensures QueryTravelAgent(rawQuestion, agent).Rejected? <==>
              |rawQuestion| < 1 || |rawQuestion| > 1000 || IsBlank(rawQuestion)
    ensures 1 <= |rawQuestion| <= 1000 && IsBlank(rawQuestion) ==>
              QueryTravelAgent(rawQuestion, agent) == Rejected([InvalidQuestion(Blank)])
    ensures !QueryTravelAgent(rawQuestion, agent).Rejected? && agent(Strip(rawQuestion)).Returned?
            && FinalAnswer(agent(Strip(rawQuestion)).output).Success? ==>
              QueryTravelAgent(rawQuestion, agent) == Ok(FinalAnswer(agent(Strip(rawQuestion)).output).value)
  {
  }

  /** With an agent present and trip details the backend accepts, both
      services refuse the same requests, give the same answer, and fail with
      the same status except for a decommissioned model. Trip details the
      backend cannot parse are refused there, while this service, whose
      request model has no such field, answers as it would without them. */
  lemma SameAnswerAsBackend(rawQuestion: string, details: AppMain.TripDetailsField, agent: Agent)
    ensures var legacy := QueryTravelAgent(rawQuestion, agent);
            var backend := AppMain.QueryEndpoint(rawQuestion, details, Some(agent));
            && (!details.Malformed? ==>
                  && (legacy.Ok? <==> backend.Ok?)
                  && (legacy.Ok? ==> legacy.body == backend.body.answer)
                  && (legacy.Rejected? <==> backend.Rejected?)
                  && (legacy.Rejected? ==> legacy.errors == backend.errors)
                  && (legacy.Error? && legacy.error.status != 500 ==> legacy.error == backend.error))
            && (details.Malformed? ==>
                  && backend.Rejected?
                  && (legacy.Rejected? <==> ValidateQuestion(rawQuestion).Failure?))
  {
  }
}

=== FILE: pystr.dfy ===
/** The parts of Python's `str` semantics the services rely on: `isspace`,
    `strip`, `splitlines` and the substring test `p in t`. Characters are
    Unicode scalar values; a Python string may also hold lone surrogates
    (U+D800 to U+DFFF), which these strings cannot. */
module PyStr {

  /** `c.isspace()`: the characters CPython classifies as whitespace. Among
      ASCII characters these are `string.whitespace` and the four separators
      U+001C to U+001F. */
  predicate IsSpace(c: char)
    ensures c as int < 0x80 ==>
              (IsSpace(c) <==> c in {' ', '\t', '\n', '\r', '\U{0B}', '\U{0C}', '\U{1C}', '\U{1D}', '\U{1E}', '\U{1F}'})
  {
    var n := c as int;
    || 0x09 <= n <= 0x0D
    || 0x1C <= n <= 0x20
    || n == 0x85 || n == 0xA0 || n == 0x1680
    || 0x2000 <= n <= 0x200A
    || n == 0x2028 || n == 0x2029 || n == 0x202F || n == 0x205F || n == 0x3000
  }

  /** The line boundaries `str.splitlines` splits on (`\r\n` counts once).
      Every one of them is also whitespace. */
  predicate IsLineBreak(c: char)
    ensures IsLineBreak(c) ==> IsSpace(c)
  {
    var n := c as int;
    || 0x0A <= n <= 0x0D
    || 0x1C <= n <= 0x1E
    || n == 0x85 || n == 0x2028 || n == 0x2029
  }

  /** `not s.strip()`: the string holds whitespace only (or nothing). */
  predicate IsBlank(s: string) {
    forall i :: 0 <= i < |s| ==> IsSpace(s[i])
  }

  /** The index of the first non-whitespace character at or after `i`, or
      `|s|`: where `s.strip()` starts. */
  function StripStart(s: string, i: nat): (lo: nat)
    requires i <= |s|
    ensures i <= lo <= |s|
    ensures forall j :: i <= j < lo ==> IsSpace(s[j])
    ensures lo < |s| ==> !IsSpace(s[lo])
    decreases |s| - i
  {
    if i == |s| || !IsSpace(s[i]) then i else StripStart(s, i + 1)
  }

  /** The index just past the last non-whitespace character of `s[lo..hi]`,
      or `lo`: where `s.strip()` ends. */
  function StripEnd(s: string, lo: nat, hi: nat): (e: nat)
    requires lo <= hi <= |s|
    ensures lo <= e <= hi
    ensures forall j :: e <= j < hi ==> IsSpace(s[j])
    ensures e > lo ==> !IsSpace(s[e - 1])
    decreases hi
  {
    if hi == lo || !IsSpace(s[hi - 1]) then hi else StripEnd(s, lo, hi - 1)
  }

  /** `s.strip()`: the text between the leading and the trailing whitespace. */
  function Strip(s: string): (r: string)
    ensures |r| <= |s|
    ensures r == [] <==> IsBlank(s)
    ensures r != [] ==> !IsSpace(r[0]) && !IsSpace(r[|r| - 1])
  {
    var lo := StripStart(s, 0);
    var hi := StripEnd(s, lo, |s|);
    assert IsBlank(s[..lo]);
    assert IsBlank(s[hi..]);
    assert hi == lo ==> IsBlank(s) by {
      if hi == lo {
        assert lo == |s|;
        assert s[..lo] == s;
      }
    }
    s[lo..hi]
  }

  /** `s` is its stripped text with whitespace on either side: stripping only
      removes whitespace, and only at the ends. */
  lemma StripDecomposes(s: string)
    ensures var lo := StripStart(s, 0); var r := Strip(s);
            && lo + |r| <= |s|
            && s == s[..lo] + r + s[lo + |r|..]
            && IsBlank(s[..lo]) && IsBlank(s[lo + |r|..])
  {
  }

  /** Stripping an already stripped string changes nothing. */
  lemma StripIdempotent(s: string)
    ensures Strip(Strip(s)) == Strip(s)
  {
  }

  /** The index of the first line boundary at or after `from`, or `|s|`. */
  function LineEnd(s: string, from: nat): (r: nat)
    requires from <= |s|
    ensures from <= r <= |s|
    ensures forall j :: from <= j < r ==> !IsLineBreak(s[j])
    ensures r < |s| ==> IsLineBreak(s[r])
    decreases |s| - from
  {
    if from == |s| || IsLineBreak(s[from]) then from else LineEnd(s, from + 1)
  }

  /** Where the line after the boundary at `i` starts: a `\r\n` pair is one
      boundary. */
  function NextLineStart(s: string, i: nat): (next: nat)
    requires i < |s| && IsLineBreak(s[i])
    ensures i < next <= i + 2 && next <= |s| && IsLineBreak(s[next - 1])
  {
    if s[i] == '\r' && i + 1 < |s| && s[i + 1] == '\n' then i + 2 else i + 1
  }

  /** `s.splitlines()`: the lines of `s` without their boundaries; a final
      boundary does not open an empty last line, and `""` has no lines. */
  function SplitLines(s: string): (lines: seq<string>)
    ensures forall k, j :: 0 <= k < |lines| && 0 <= j < |lines[k]| ==> !IsLineBreak(lines[k][j])
    ensures s == [] <==> lines == []
    decreases |s|
  {
    if s == [] then []
    else
      var i := LineEnd(s, 0);
      if i == |s| then [s]
      else
        [s[..i]] + SplitLines(s[NextLineStart(s, i)..])
  }

  /** The text around one line boundary is blank exactly when the text
      before it and the text after it are. */
  lemma BlankAroundBreak(s: string, i: nat, next: nat)
    requires i < next <= i + 2 && next <= |s|
    requires IsLineBreak(s[i]) && IsLineBreak(s[next - 1])
    ensures IsBlank(s) <==> IsBlank(s[..i]) && IsBlank(s[next..])
  {
  }

  /** A stretch with no line boundary. */
  predicate NoLineBreak(s: string) {
    forall j :: 0 <= j < |s| ==> !IsLineBreak(s[j])
  }

  /** The first line boundary is found where it is. */
  lemma LineEndAt(s: string, to: nat)
    requires to <= |s| && (to < |s| ==> IsLineBreak(s[to]))
    requires NoLineBreak(s[..to])
    ensures LineEnd(s, 0) == to
  {
    assert forall j :: 0 <= j < to ==> s[j] == s[..to][j];
  }

  /** A line ended by a single boundary character (not the `\r` of a `\r\n`
      pair) is the first line, and the lines after it are those of the rest. */
  lemma SplitLinesBreak(line: string, b: char, rest: string)
    requires NoLineBreak(line) && IsLineBreak(b)
    requires !(b == '\r' && rest != [] && rest[0] == '\n')
    ensures SplitLines(line + [b] + rest) == [line] + SplitLines(rest)
  {
    var s := line + [b] + rest;
    assert s[..|line|] == line;
    LineEndAt(s, |line|);
    assert s[|line| + 1..] == rest;
  }

  /** A `\r\n` pair ends a line as one boundary. */
  lemma SplitLinesCrLf(line: string, rest: string)
    requires NoLineBreak(line)
    ensures SplitLines(line + "\r\n" + rest) == [line] + SplitLines(rest)
  {
    var s := line + "\r\n" + rest;
    assert s[..|line|] == line;
    LineEndAt(s, |line|);
    assert s[|line| + 2..] == rest;
  }

  /** A non-empty text with no boundary is one line. */
  lemma SplitLinesLastLine(line: string)
    requires line != [] && NoLineBreak(line)
    ensures SplitLines(line) == [line]
  {
    assert line[..|line|] == line;
    LineEndAt(line, |line|);
  }

  /** Every line in `lines` is blank. */
  predicate AllBlank(lines: seq<string>) {
    forall k :: 0 <= k < |lines| ==> IsBlank(lines[k])
  }

  lemma AllBlankCons(first: string, rest: seq<string>)
    ensures AllBlank([first] + rest) <==> IsBlank(first) && AllBlank(rest)
  {
    var lines := [first] + rest;
    if AllBlank(lines) {
      assert IsBlank(lines[0]);
      forall k | 0 <= k < |rest| ensures IsBlank(rest[k]) {
        assert rest[k] == lines[k + 1];
      }
    }
    if IsBlank(first) && AllBlank(rest) {
      forall k | 0 <= k < |lines| ensures IsBlank(lines[k]) {
        if k > 0 {
          assert lines[k] == rest[k - 1];
        }
      }
    }
  }

  /** A text is blank exactly when every one of its lines is blank. */
  lemma {:induction false} SplitLinesBlank(s: string)
    ensures IsBlank(s) <==> AllBlank(SplitLines(s))
    decreases |s|
  {
    if s != [] {
      var i := LineEnd(s, 0);
      if i < |s| {
        var next := NextLineStart(s, i);
        var rest := SplitLines(s[next..]);
        SplitLinesBlank(s[next..]);
        BlankAroundBreak(s, i, next);
        AllBlankCons(s[..i], rest);
      } else {
        assert SplitLines(s) == [s];
        AllBlankCons(s, []);
      }
    }
  }

  /** `t.startswith(p)`. */
  predicate StartsWith(t: string, p: string) {
    |p| <= |t| && t[..|p|] == p
  }

  /** `p in t`: `p` occurs as a contiguous substring of `t`. */
  predicate Contains(t: string, p: string)
    ensures Contains(t, p) ==> |p| <= |t|
    decreases |t|
  {
    StartsWith(t, p) || (t != [] && Contains(t[1..], p))
  }

  /** `p` occurs in `t` starting at index `i`. */
  predicate OccursAt(t: string, p: string, i: nat) {
    i + |p| <= |t| && t[i..i + |p|] == p
  }

  /** The substring test agrees with its declarative reading: `p in t`
      exactly when `p` occurs in `t` at some index. */
  lemma {:induction false} ContainsIffOccurs(t: string, p: string)
    ensures Contains(t, p) <==> exists i: nat :: OccursAt(t, p, i)
    decreases |t|
  {
    assert StartsWith(t, p) <==> OccursAt(t, p, 0);
    if t != [] {
      ContainsIffOccurs(t[1..], p);
      forall i: nat
        ensures OccursAt(t[1..], p, i) <==> OccursAt(t, p, i + 1)
      {
        if i + |p| <= |t[1..]| {
          var a, b := t[1..][i..i + |p|], t[i + 1..i + 1 + |p|];
          assert |a| == |b| && forall k :: 0 <= k < |a| ==> a[k] == b[k];
        }
      }
      if exists i: nat :: OccursAt(t, p, i) {
        var i: nat :| OccursAt(t, p, i);
        if i > 0 {
          assert OccursAt(t[1..], p, i - 1);
        }
      }
    } else {
      if exists i: nat :: OccursAt(t, p, i) {
        var i: nat :| OccursAt(t, p, i);
        assert i == 0 && p == [];
      }
    }
  }

  /** A text without the first character of `p` cannot contain `p`. */
  lemma {:induction false} NotContainsWithoutFirstChar(t: string, p: string)
    requires p != []
    requires forall i :: 0 <= i < |t| ==> t[i] != p[0]
    ensures !Contains(t, p)
    decreases |t|
  {
    if t != [] {
      NotContainsWithoutFirstChar(t[1..], p);
      assert !StartsWith(t, p) by {
        if |p| <= |t| {
          assert t[..|p|][0] == t[0];
        }
      }
    }
  }
}

=== FILE: values.dfy ===
/** The dynamically typed values that flow through the system: what a YAML
    document parses to, what a Python keyword map holds. */
module Values {

  /** A JSON/YAML-like value. `Null` is Python's `None`; `Dict` is a `dict`
      keyed by strings. */
  datatype Value =
    | Null
    | Bool(b: bool)
    | Int(i: int)
    | Str(s: string)
    | List(items: seq<Value>)
    | Dict(entries: map<string, Value>)
}

=== FILE: wrappers.dfy ===
/** Failure-compatible result types used throughout the model: Python's
    `None`-or-value and raise-or-return are modelled by these instead of by
    preconditions that forbid the failing inputs. */
module Wrappers {

  /** A value that may be absent (Python's `Optional[T]`). */
  datatype Option<+T> = None | Some(value: T) {
    predicate IsFailure() {
      None?
    }

    function PropagateFailure<U>(): Option<U>
      requires None?
    {
      None
    }

    function Extract(): T
      requires Some?
    {
      value
    }
  }

  /** Either a computed value or the error the source raises instead. */
  datatype Result<+R, +E> = Success(value: R) | Failure(error: E) {
    predicate IsFailure() {
      Failure?
    }

    function PropagateFailure<U>(): Result<U, E>
      requires Failure?
    {
      Failure(error)
    }

    function Extract(): R
      requires Success?
    {
      value
    }
  }

  /** A check that either passes or fails with an error (a Python function that
      returns `True` or raises). */
  datatype Outcome<+E> = Pass | Fail(error: E)
}
